=== FILE: README.md ===
# Album downloader: fetch paths, naming and error flags

A Dafny model of the core of a small Python downloader. It fetches every track of an album from a listing
page. The model has two parts.

**The two fetch paths as state transitions over an immutable filesystem.**
- `Cache.SaveUrlToCache` models `save_url_to_cache`. It is a content-addressed cache under
  `.cache/<sha256(url)>`. The body is written to `<digest>.temp` and then renamed into place.
- `Media.DownloadMediaFile` models `download_media_file`. It is a resumable download into `<name>.temp`,
  renamed onto `<name>` only when the transfer completes.

The filesystem (`Storage.FileSystem`) maps paths to bytes and also records the existing directories. That
lets the model say when an `open` or an `os.rename` raises for the reasons it models: an empty name, a NUL
in the name, a trailing separator, a directory in the way, or a missing parent directory.

The network, SHA-256, the track-JSON reader and the presence of ffmpeg form one environment value,
`World.Env`. The network is an oracle: it returns the whole body, or breaks after some bytes. Every call
returns a `World.Step`. A step holds the new filesystem, the external actions taken in order (`Fetch`,
`Transcode`) and either a return value or the exception raised. "No request was made" means the action log
holds no `Fetch`.

**The string logic that decides names and control flow** (`PathNames`, `Naming`):
- the track id and metadata URL taken from a listing link;
- the title sanitiser and the output file name;
- the `--naming` policy;
- the convert-or-not decision and the converted file name.

These rest on models of Python's `posixpath.join`, `splitext` and `dirname`. Finally, `Tracks` covers
`download_track`: its `try` block, its error flag, and why a re-run is quiet. It also covers the run-level
aggregation of `main`, as a sequential fold over the listing.

Some behaviours of the code differ from what one might expect of such a tool. The model follows the code:
- The "already downloaded" check tests that the final file exists. An empty file counts.
- The cache never looks at the HTTP status code. An error page is cached like any other body. On a failed
  GET the temporary file is left empty, because `open(..., "wb")` ran before the request.
- Fetching and reading a track's metadata happen outside the `try` of `download_track`. Their errors are
  not turned into the error flag. They propagate, and `main` re-raises them when it collects that track's
  result, which ends the run. Tracks already running or finished are unaffected, and tracks not yet started
  are cancelled.
- `subprocess.run` is not checked. A conversion only raises when ffmpeg cannot be started.
- The title sanitiser removes only characters above 0x7F. A `/` in a title therefore survives into the path.
  Under the default naming, an absolute title leaves the album directory, because `os.path.join` then
  discards the album path. Under `--naming track` the name starts with `<id>_` and stays relative.
- Under the default naming, tracks whose titles have no ASCII character and whose media URLs have the
  same extension all get the same file name (`Naming.DefaultNamingCollides`). Run one after another, once
  the first such download has returned, the later tracks find that file and download nothing. If the first
  transfer broke instead, the next track finds its temporary file and resumes it with its own media URL
  from the first track's offset, so the published file is the first track's bytes followed by the rest of
  the second's (`Media.ResumeAcrossUrls`). Run concurrently, they can write the same temporary file at once.

## Model

| member | source | states |
|---|---|---|
| PathNames.LastIndexOf | main.py:60 | the result is -1 or an index holding `c`, and no later index holds `c` (`str.rfind`, used by `split("/")[-1]` and `splitext`) |
| PathNames.Basename | main.py:60 | the result is the longest suffix of the path without a `/`, so it is preceded by a `/` unless it is the whole path |
| PathNames.Join | main.py:154-156 | `os.path.join` returns an absolute second argument unchanged; otherwise it concatenates the two arguments, with a `/` between them exactly when the first is non-empty and does not already end in `/` |
| PathNames.JoinBasename | main.py:154-156 | joining never changes the last segment: the joined path has the basename of its second argument |
| PathNames.Splitext | main.py:113 | `os.path.splitext` cuts the path into root and extension that concatenate back to it; a non-empty extension is a dot followed by no dot and no `/`, and its root has a basename that is not only dots |
| PathNames.SplitextRoundTrip | main.py:128-129 | every root-with-stem plus extension is split back into exactly that root and extension, so the split is unique |
| PathNames.SplitextWithoutStem | main.py:158 | after a root whose basename is only dots (or empty), a trailing extension is not recognised and the whole path is the root |
| PathNames.Dirname | main.py:34 | `os.path.dirname` gives the text before the basename when that text is only separators; otherwise it gives that text with its trailing separators removed, which is non-empty and does not end in `/` |
| Storage.Rename | main.py:97 | `os.rename` succeeds exactly when the target could be created; the target then holds the source's bytes, the source is gone, and no other file or directory changes |
| Cache.SaveUrlToCache | main.py:15-41 | a hit returns the cache path with no request and no change; a returned path always exists; a raise never publishes the entry; a newly published entry holds exactly the delivered body; at most one GET is issued; only the entry and its temporary file can change |
| Cache.CachePathForm | main.py:26-32 | the entry is `.cache/<digest>` and the temporary file `.cache/<digest>.temp`, of different lengths |
| Cache.CachePathsShape | main.py:32-34 | both cache names sit directly in `.cache`, the directory whose presence decides whether `open` can create the temporary file |
| Cache.CachePathsDistinct | main.py:26-32 | no temporary name is ever an entry name, and two URLs share an entry exactly when they share a digest |
| Cache.MissPublishesBody | main.py:32-41 | on a miss with `.cache` present, a delivered reply of any status is published: one GET, the entry holds exactly the body and the temporary file is removed |
| Cache.MissOnTransportFailure | main.py:34-38 | on a miss where the GET raises, the entry stays absent and the temporary file is left empty |
| Cache.SaveIsIdempotent | main.py:26-30 | a second fetch of the same URL after one that returned issues no request, changes nothing and returns the same path |
| Cache.SaveKeepsCacheSound | main.py:26-41 | if every entry holds the full body delivered for some URL with that entry's digest, it still does after a fetch: no entry ever holds a partial or failed download |
| Cache.EntryOfOtherUrl | main.py:26-41 | a fetch of one URL creates no entry of another digest: an entry of another digest present afterwards was present before, with the same bytes |
| Cache.OtherEntrySurvives | main.py:26-41 | a fetch of one URL keeps every entry of another digest present, with the same bytes |
| Media.DownloadMediaFile | main.py:67-98 | an existing final file ends the call with no request and no change; the call returns exactly when the final file exists afterwards; a fresh success removes the temporary file; only the final and temporary names change; at most one request |
| Media.ResumeAcrossUrls | main.py:82-97 | when a first download to a name breaks, a download from another URL to the same name resumes the temporary file from the first's offset with its own URL, and on completion publishes the first's bytes followed by its own |
| Media.ResumeOffset | main.py:82-88 | with a temporary file present the one request resumes from its current size; without it the request is a plain GET |
| Media.CompletedTransferPublishes | main.py:90-97 | a download that returns on a missing file made one delivered request, and the final file is the old temporary content followed by the bytes received; the temporary file is gone |
| Media.BrokenTransferKeepsCheckpoint | main.py:90-97 | when the transfer raises, the rename is not reached: the final file stays absent and the temporary file holds its old content followed by the bytes received |
| Media.UnopenableTempRaises | main.py:82-88 | a name holding a NUL, which the title sanitiser keeps, makes the `open` of the temporary file raise before any request and with no change |
| Media.DownloadIsIdempotent | main.py:71-73 | downloading again after a download that returned makes no request and changes nothing |
| Media.ResumeKeepsConsistent | main.py:82-97 | against a server serving a fixed content, the final file is only ever that whole content and the temporary file a prefix of it; a run that returns leaves exactly that content |
| Media.RerunDeliversContent | main.py:67-97 | over any number of runs, each of which may break part-way, the final file only ever holds the complete content, and it does after a run that returns |
| Naming.TrackInfoOf | main.py:59-62 | the listing entry keeps the link; its id is the suffix of the link after the last `/` (the whole link when there is none) and contains no `/`; its metadata URL is the tracks URL built from that id |
| Naming.TrackIdOfLink | main.py:60 | the id of `path/id` is `id` when `id` has no `/` |
| Naming.MetadataUrlInjective | main.py:61 | distinct ids give distinct metadata URLs |
| Naming.Sanitize | main.py:112 | the sanitised title holds only characters up to 0x7F; it is a subsequence of the title; it keeps every ASCII character as often as the title has it |
| Naming.SanitizeConcat | main.py:112 | sanitising a concatenation concatenates the sanitised parts |
| Naming.SanitizeFixedPoint | main.py:112 | sanitising leaves a title unchanged exactly when every character is ASCII |
| Naming.SanitizeIdempotent | main.py:112 | sanitising twice is sanitising once |
| Naming.SanitizeNonAscii | main.py:112 | a title without ASCII characters sanitises to the empty string |
| Naming.TrackFileNameSplits | main.py:112-114 | the file name is the sanitised title followed by the media URL's extension, and splits back into those two when the sanitised title has a stem and the media URL has an extension (without one, a dot in the title would start an extension) |
| Naming.NamingPolicy | main.py:154-156 | for an album path that is non-empty and does not end in `/` (the general case is the contract of `PathNames.Join`): `naming == "track"` gives `album/<id>_<name>`, always relative; any other value gives `album/<name>`, or just the name when it is absolute |
| Naming.DefaultNamingCollides | main.py:112-156 | under the default naming, two tracks with titles free of ASCII characters and the same media extension get the same output path, whatever their ids |
| Naming.ConvertedNameCarriesExtension | main.py:158-160 | when the file's root has a stem, the converted name `<root>.<extension>` has exactly that root and the requested extension, so it needs no further conversion; when it has none, the converted name has no extension at all |
| Tracks.DownloadTrack | main.py:146-166 | one track is the metadata fetch through the cache, the metadata read, then the `try` block (`Tracks.TryDownload`); the action log starts with the metadata fetch; a raise leaves only what the cache fetch changed; directories never change. Its other properties are `Tracks.TrackRaisesOnlyForMetadata` and `Tracks.TrackRerunIsQuiet` |
| Tracks.TryDownload | main.py:153-164 | the `try` block always returns; its flag is true exactly when the media download raised or a needed conversion found no ffmpeg; ffmpeg is asked for `<root>.<extension>` exactly when the download returned and the extension differs; the filesystem is the download's |
| Tracks.TrackRaisesOnlyForMetadata | main.py:149-166 | `download_track` raises exactly when fetching or reading the metadata failed, and otherwise returns the `try` block's flag |
| Tracks.AttemptOnDownloadedFile | main.py:157-160 | once the file exists, the `try` block makes no request, changes nothing and fails only if a needed conversion cannot start |
| Tracks.TrackPathOutsideCache | main.py:154-156 | with the album directory under `./` or absolute, neither a track's output path nor its temporary file is a cache entry or a cache temporary file |
| Tracks.TrackRerunIsQuiet | main.py:146-166 | with the album directory under `./` or absolute, as `main` builds it, re-running a track that returned no error makes no request, changes nothing and again returns no error |
| Tracks.MapTasks | main.py:197-199 | a run that returns has exactly one flag per listing entry |
| Tracks.MapTasksFlag | main.py:197-199 | flag `i` of a run that returned is the result of track `i`, run on the filesystem the tracks before it left |
| Tracks.MapTasksRaises | main.py:197-199 | a run raises exactly when some track raises |
| Tracks.MapTasksSomeFlag | main.py:197-202 | in a run that returned, some flag is set exactly when some track returned `true` |
| Tracks.MapTasksAppend | main.py:197-202 | running a listing is running its first part and then its second on the filesystem the first left, whatever flags the first produced; logs concatenate and the first raise wins |
| Tracks.AnyFailed | main.py:196-202 | the run-level flag is set exactly when some track's flag is set |
| Tracks.RunAlbum | main.py:196-202 | the album run raises exactly when some track raised; otherwise it reports an error exactly when some track returned `true`; each track runs on the filesystem the tracks before it left |

## Left out

- HTTP transport (`requests`, `pycurl`): modelled as an oracle from request to reply. The oracle does not
  model headers, the user agent, status codes or range semantics beyond "resume from this offset".
- SHA-256 (main.py:8-12): an arbitrary function from URL to 64 lower-case hex digits. Nothing assumes that
  it is collision-free. Two URLs with the same digest share one entry, and the model does not say which of
  them filled it.
- HTML listing parsing (main.py:44-57) and JSON decoding (main.py:106-111) rely on foreign libraries. The
  model starts from the extracted links. It reads a track document through the `parseTrackJson` oracle,
  which fails where Python would raise.
- The ffmpeg run (main.py:131-133): only its target name, and whether it can start, are modelled. The
  converted file is not added to the filesystem. The source does not check ffmpeg's exit status either.
- `ThreadPoolExecutor` concurrency (main.py:197-202): tracks run one after another in listing order.
  Races between workers on shared names are not modelled.
- Tracks.MapTasks: on a raise, every later track still runs. In the source, a raise collected from
  `executor.map` cancels the tracks not yet started, so after a raised run the model's filesystem can hold
  downloads the program never makes. The outcome and the flags of the tracks before the raise are as in
  the source.
- The command line, `os.makedirs`, the album page fetch and the `print` output (main.py:169-194,
  204-207): plumbing. The model takes the existing directories as given.
- Writes, reads, closes and `os.path.getsize` never fail in the model. In the two fetch paths only opening a
  temporary file, the transfer and the rename can raise. Elsewhere, reading the track document and starting
  ffmpeg can fail.
- Media.DownloadMediaFile: `open` and `os.rename` failures for a name component longer than the
  filesystem's limit (the `.temp` name can exceed it while the final name fits), for missing permissions,
  or for a full disk are not modelled. The call fetches and publishes where the program would raise.
- Paths are compared as strings: `./a` and `a` are different files. Symbolic links and special files are
  not modelled.
- Tracks.TrackRerunIsQuiet: proved per track only. A whole album is not shown to re-run quietly, because
  tracks share the album directory and one track's names can collide with another's.


=== FILE: cache.dfy ===
/** `save_url_to_cache`: a content-addressed cache of downloaded pages
    under `.cache/`, named by the SHA-256 digest of the URL. A complete
    entry is published by renaming `<digest>.temp` onto `<digest>`. */
module Cache {
  import opened PathNames
  import opened Storage
  import opened World

  const CacheDir: Path := ".cache"

  function CachePath(env: Env, url: string): Path
  {
    Join(CacheDir, env.sha256(url))
  }

  function CacheTempPath(env: Env, url: string): Path
  {
    Join(CacheDir, env.sha256(url) + ".temp")
  }

  /** A digest contains no separator and does not start one. */
  lemma DigestHasNoSlash(d: HexDigest)
    ensures forall i :: 0 <= i < |d| ==> d[i] != '/'
    ensures forall i :: 0 <= i < |d + ".temp"| ==> (d + ".temp")[i] != '/'
  {
    forall i | 0 <= i < |d| ensures d[i] != '/' {
      assert IsHexDigit(d[i]);
    }
    var t := d + ".temp";
    forall i | 0 <= i < |t| ensures t[i] != '/' {
      if i < |d| {
        assert t[i] == d[i];
      }
    }
  }

  /** The cache names spelled out: `.cache/<digest>` and
      `.cache/<digest>.temp`, of different lengths, so that the temporary
      name of one URL is never the final name of any. */
  lemma CachePathForm(env: Env, url: string)
    ensures CachePath(env, url) == CacheDir + "/" + env.sha256(url)
    ensures CacheTempPath(env, url) == CacheDir + "/" + (env.sha256(url) + ".temp")
    ensures |CachePath(env, url)| == 71 && |CacheTempPath(env, url)| == 76
  {
    var d := env.sha256(url);
    assert IsHexDigit(d[0]);
    assert (d + ".temp")[0] == d[0];
    assert CacheDir[|CacheDir| - 1] != '/';
  }

  /** Both cache names hold no NUL: `.cache/` followed by hex digits,
      and for the temporary name `.temp`. */
  lemma CachePathsHaveNoNul(env: Env, url: string)
    ensures NoNul(CachePath(env, url)) && NoNul(CacheTempPath(env, url))
  {
    var d := env.sha256(url);
    var prefix := CacheDir + "/";
    CachePathForm(env, url);
    ConcatHasNoNul(prefix, d);
    ConcatHasNoNul(prefix, d + ".temp");
  }

  /** Two strings without NUL concatenate to one without NUL. */
  lemma ConcatHasNoNul(prefix: string, name: string)
    requires NoNul(prefix)
    requires forall i :: 0 <= i < |name| ==> name[i] != '\0'
    ensures NoNul(prefix + name)
  {
    var p := prefix + name;
    forall i | 0 <= i < |p| ensures p[i] != '\0' {
      if i < |prefix| {
        assert p[i] == prefix[i];
      } else {
        assert p[i] == name[i - |prefix|];
      }
    }
  }

  /** With `.cache` present and neither name taken by a directory, both
      cache names can be opened for writing. */
  lemma CacheNamesOpenable(env: Env, fs: FileSystem, url: string)
    requires CacheDir in fs.dirs
    requires CachePath(env, url) !in fs.dirs && CacheTempPath(env, url) !in fs.dirs
    ensures CanOpenForWrite(fs, CachePath(env, url)) && CanOpenForWrite(fs, CacheTempPath(env, url))
  {
    CachePathsShape(env, url);
    CachePathsHaveNoNul(env, url);
  }

  /** A URL's temporary name is not its entry name. */
  lemma CacheNamesDiffer(env: Env, url: string)
    ensures CachePath(env, url) != CacheTempPath(env, url)
  {
    CachePathForm(env, url);
  }

  /** Both cache names sit directly in `.cache`. */
  lemma CachePathsShape(env: Env, url: string)
    ensures Dirname(CachePath(env, url)) == CacheDir
    ensures Dirname(CacheTempPath(env, url)) == CacheDir
  {
    var d := env.sha256(url);
    CachePathForm(env, url);
    DigestHasNoSlash(d);
    DirnameOfChild(CacheDir, d);
    DirnameOfChild(CacheDir, d + ".temp");
  }

  /** The cache is keyed by digest: two URLs share an entry exactly when
      they share a digest, and no temporary name is ever an entry name. */
  lemma CachePathsDistinct(env: Env, u: string, v: string)
    ensures CachePath(env, u) != CacheTempPath(env, v)
    ensures CachePath(env, u) == CachePath(env, v) <==> env.sha256(u) == env.sha256(v)
  {
    CachePathForm(env, u);
    CachePathForm(env, v);
    if CachePath(env, u) == CachePath(env, v) {
      var n := |CacheDir| + 1;
      assert env.sha256(u) == CachePath(env, u)[n..];
      assert env.sha256(v) == CachePath(env, v)[n..];
    }
  }

  /** The fetch of `url` through the cache. A hit returns at once; a miss
      opens the temporary file (truncating it), issues one GET, writes the
      body whatever its status code, and renames it into place. */
  function SaveUrlToCache(env: Env, fs: FileSystem, url: string): (r: Step<Path>)
    ensures CachePath(env, url) in fs.files ==> r == Step(fs, [], Returned(CachePath(env, url)))
    ensures r.outcome.Returned? ==>
              r.outcome.value == CachePath(env, url) && r.outcome.value in r.fs.files
    ensures r.outcome.Raised? ==> CachePath(env, url) !in r.fs.files
    ensures CachePath(env, url) !in fs.files && CachePath(env, url) in r.fs.files ==>
              env.net(Get(url)).Delivered? && r.fs.files[CachePath(env, url)] == env.net(Get(url)).body
    ensures r.log == [] || r.log == [Fetch(Get(url))]
    ensures var touched := {CachePath(env, url), CacheTempPath(env, url)};
            r.fs.files - touched == fs.files - touched
    ensures r.fs.dirs == fs.dirs
  {
    var cachePath := CachePath(env, url);
    var tempPath := CacheTempPath(env, url);
    CacheNamesDiffer(env, url);
    if cachePath in fs.files then
      Step(fs, [], Returned(cachePath))
    else if !CanOpenForWrite(fs, tempPath) then
      Step(fs, [], Raised(OpenFailed))
    else
      var log := [Fetch(Get(url))];
      var touched := {cachePath, tempPath};
      match env.net(Get(url))
      case Broken(_) =>
        WriteFrame(fs, tempPath, [], touched);
        Step(Write(fs, tempPath, []), log, Raised(TransportFailed))
      case Delivered(body) =>
        var written := Write(fs, tempPath, body);
        WriteFrame(fs, tempPath, body, touched);
        match Rename(written, tempPath, cachePath)
        case None => Step(written, log, Raised(RenameFailed))
        case Some(published) =>
          RenameFrame(written, tempPath, cachePath, touched);
          Step(published, log, Returned(cachePath))
  }

  /** On a miss, with `.cache` present and neither name taken by a
      directory, a delivered reply (of any status) is published: the entry
      holds exactly the body and the temporary file is gone. */
  lemma MissPublishesBody(env: Env, fs: FileSystem, url: string)
    requires CacheDir in fs.dirs
    requires CachePath(env, url) !in fs.files
    requires CachePath(env, url) !in fs.dirs && CacheTempPath(env, url) !in fs.dirs
    requires env.net(Get(url)).Delivered?
    ensures var r := SaveUrlToCache(env, fs, url);
            && r.outcome == Returned(CachePath(env, url))
            && r.log == [Fetch(Get(url))]
            && r.fs.files == (fs.files - {CacheTempPath(env, url)})[CachePath(env, url) := env.net(Get(url)).body]
  {
    CacheNamesOpenable(env, fs, url);
    var r := SaveUrlToCache(env, fs, url);
    var written := Write(fs, CacheTempPath(env, url), env.net(Get(url)).body);
    assert CanOpenForWrite(written, CachePath(env, url));
  }

  /** On a miss where the GET raises, nothing is published and the
      temporary file is left empty, created by the `open` before the GET. */
  lemma MissOnTransportFailure(env: Env, fs: FileSystem, url: string)
    requires CachePath(env, url) !in fs.files
    requires CanOpenForWrite(fs, CacheTempPath(env, url))
    requires env.net(Get(url)).Broken?
    ensures var r := SaveUrlToCache(env, fs, url);
            && r.outcome == Raised(TransportFailed)
            && r.log == [Fetch(Get(url))]
            && CachePath(env, url) !in r.fs.files
            && r.fs.files[CacheTempPath(env, url)] == []
  {
  }

  /** Fetching the same URL twice: the second call finds the entry the
      first published, issues no request, changes nothing and returns the
      same path. */
  lemma SaveIsIdempotent(env: Env, fs: FileSystem, url: string)
    requires SaveUrlToCache(env, fs, url).outcome.Returned?
    ensures var first := SaveUrlToCache(env, fs, url);
            SaveUrlToCache(env, first.fs, url) == Step(first.fs, [], first.outcome)
  {
  }

  /** `data`, stored under the entry name `p`, is the full body the
      network delivers for some URL whose entry name is `p`. */
  ghost predicate DeliveredFor(env: Env, p: Path, data: Bytes)
  {
    exists v :: CachePath(env, v) == p && env.net(Get(v)).Delivered? && data == env.net(Get(v)).body
  }

  /** Every complete entry in the cache holds the full body the network
      delivers for a URL with that digest: a final name never shows a
      partial or failed download. Two URLs with one digest share the
      entry, so which of them filled it is not determined. */
  ghost predicate CacheSound(env: Env, fs: FileSystem)
  {
    forall u :: CachePath(env, u) in fs.files ==> DeliveredFor(env, CachePath(env, u), fs.files[CachePath(env, u)])
  }

  /** `save_url_to_cache` keeps the cache sound. */
  lemma SaveKeepsCacheSound(env: Env, fs: FileSystem, url: string)
    requires CacheSound(env, fs)
    ensures CacheSound(env, SaveUrlToCache(env, fs, url).fs)
  {
    var r := SaveUrlToCache(env, fs, url);
    forall u | CachePath(env, u) in r.fs.files
      ensures DeliveredFor(env, CachePath(env, u), r.fs.files[CachePath(env, u)])
    {
      EntryAfterSave(env, fs, url, u);
    }
  }

  /** One entry after a fetch of `url`: either it is `url`'s own, then
      new and holding the delivered body or found as it was, or it is
      another digest's and untouched. */
  lemma EntryAfterSave(env: Env, fs: FileSystem, url: string, u: string)
    requires CachePath(env, u) in fs.files ==> DeliveredFor(env, CachePath(env, u), fs.files[CachePath(env, u)])
    requires CachePath(env, u) in SaveUrlToCache(env, fs, url).fs.files
    ensures DeliveredFor(env, CachePath(env, u), SaveUrlToCache(env, fs, url).fs.files[CachePath(env, u)])
  {
    var r := SaveUrlToCache(env, fs, url);
    if CachePath(env, u) != CachePath(env, url) {
      EntryOfOtherUrl(env, fs, url, u);
    } else if CachePath(env, url) !in fs.files {
      assert r.fs.files[CachePath(env, url)] == env.net(Get(url)).body;
      assert DeliveredFor(env, CachePath(env, u), r.fs.files[CachePath(env, u)]);
    }
  }

  /** A fetch of `url` creates no entry of another digest: one present
      afterwards was there before, with the same bytes. */
  lemma EntryOfOtherUrl(env: Env, fs: FileSystem, url: string, u: string)
    requires CachePath(env, u) != CachePath(env, url)
    requires CachePath(env, u) in SaveUrlToCache(env, fs, url).fs.files
    ensures CachePath(env, u) in fs.files
    ensures SaveUrlToCache(env, fs, url).fs.files[CachePath(env, u)] == fs.files[CachePath(env, u)]
  {
    var r := SaveUrlToCache(env, fs, url);
    CachePathsDistinct(env, u, url);
    Untouched(r.fs.files, fs.files, {CachePath(env, url), CacheTempPath(env, url)}, CachePath(env, u));
  }

  /** A fetch of `url` keeps every entry of another digest, with the same
      bytes. */
  lemma OtherEntrySurvives(env: Env, fs: FileSystem, url: string, u: string)
    requires CachePath(env, u) != CachePath(env, url)
    requires CachePath(env, u) in fs.files
    ensures CachePath(env, u) in SaveUrlToCache(env, fs, url).fs.files
    ensures SaveUrlToCache(env, fs, url).fs.files[CachePath(env, u)] == fs.files[CachePath(env, u)]
  {
    var r := SaveUrlToCache(env, fs, url);
    CachePathsDistinct(env, u, url);
    Untouched(fs.files, r.fs.files, {CachePath(env, url), CacheTempPath(env, url)}, CachePath(env, u));
  }
}

=== FILE: media.dfy ===
/** `download_media_file`: a resumable download into `<name>.temp`,
    renamed onto `<name>` once the transfer has completed. */
module Media {
  import opened PathNames
  import opened Storage
  import opened World

  function TempPath(fileName: Path): Path
  {
    fileName + ".temp"
  }

  /** Bytes already in the temporary file: the resume checkpoint. */
  function Checkpoint(fs: FileSystem, fileName: Path): Bytes
  {
    if TempPath(fileName) in fs.files then fs.files[TempPath(fileName)] else []
  }

  /** A file that already exists (even an empty one) ends the call. Else
      the temporary file is opened, for appending when it exists and then
      resumed from its size, or created empty; the transfer appends to it;
      a raise in the transfer leaves it as it is, and only a completed
      transfer is renamed onto the final name. */
  function DownloadMediaFile(env: Env, fs: FileSystem, url: string, fileName: Path): (r: Step<()>)
    ensures fileName in fs.files ==> r == Step(fs, [], Returned(()))
    ensures r.outcome.Returned? <==> fileName in r.fs.files
    ensures fileName !in fs.files && r.outcome.Returned? ==> TempPath(fileName) !in r.fs.files
    ensures var touched := {fileName, TempPath(fileName)};
            r.fs.files - touched == fs.files - touched
    ensures r.fs.dirs == fs.dirs
    ensures |r.log| <= 1
  {
    if fileName in fs.files then
      Step(fs, [], Returned(()))
    else
      var temp := TempPath(fileName);
      if !CanOpenForWrite(fs, temp) then
        Step(fs, [], Raised(OpenFailed))
      else
        var prior := Checkpoint(fs, fileName);
        var request := if Exists(fs, temp) then GetFrom(url, |prior|) else Get(url);
        var touched := {fileName, temp};
        match env.net(request)
        case Broken(received) =>
          WriteFrame(fs, temp, prior + received, touched);
          Step(Write(fs, temp, prior + received), [Fetch(request)], Raised(TransportFailed))
        case Delivered(body) =>
          var written := Write(fs, temp, prior + body);
          WriteFrame(fs, temp, prior + body, touched);
          match Rename(written, temp, fileName)
          case None => Step(written, [Fetch(request)], Raised(RenameFailed))
          case Some(done) =>
            RenameFrame(written, temp, fileName, touched);
            Step(done, [Fetch(request)], Returned(()))
  }

  /** The request a call makes when the final file is absent and the
      temporary file can be opened: resumed from the checkpoint's size when
      the temporary file exists, a plain GET otherwise. */
  lemma ResumeOffset(env: Env, fs: FileSystem, url: string, fileName: Path)
    requires fileName !in fs.files
    requires CanOpenForWrite(fs, TempPath(fileName))
    ensures TempPath(fileName) in fs.files ==>
              DownloadMediaFile(env, fs, url, fileName).log
              == [Fetch(GetFrom(url, |fs.files[TempPath(fileName)]|))]
    ensures TempPath(fileName) !in fs.files ==>
              DownloadMediaFile(env, fs, url, fileName).log == [Fetch(Get(url))]
  {
  }

  /** A completed transfer publishes the old checkpoint followed by the
      bytes received, and removes the temporary file. */
  lemma CompletedTransferPublishes(env: Env, fs: FileSystem, url: string, fileName: Path)
    requires fileName !in fs.files
    requires DownloadMediaFile(env, fs, url, fileName).outcome.Returned?
    ensures var r := DownloadMediaFile(env, fs, url, fileName);
            && |r.log| == 1 && r.log[0].Fetch?
            && env.net(r.log[0].request).Delivered?
            && r.fs.files[fileName] == Checkpoint(fs, fileName) + env.net(r.log[0].request).body
            && TempPath(fileName) !in r.fs.files
  {
  }

  /** A transfer that raises never reaches the rename: the final name
      stays absent and the temporary file keeps the checkpoint followed by
      the bytes received so far, ready for the next run. */
  lemma BrokenTransferKeepsCheckpoint(env: Env, fs: FileSystem, url: string, fileName: Path)
    requires fileName !in fs.files
    requires CanOpenForWrite(fs, TempPath(fileName))
    requires DownloadMediaFile(env, fs, url, fileName).log != []
    requires env.net(DownloadMediaFile(env, fs, url, fileName).log[0].request).Broken?
    ensures var r := DownloadMediaFile(env, fs, url, fileName);
            && r.outcome == Raised(TransportFailed)
            && fileName !in r.fs.files
            && r.fs.files[TempPath(fileName)]
               == Checkpoint(fs, fileName) + env.net(r.log[0].request).received
  {
  }

  /** A name whose temporary file Python refuses to open, such as one
      holding a NUL (the title sanitiser keeps NUL), ends the call with a
      raise before any request and without any change. */
  lemma UnopenableTempRaises(env: Env, fs: FileSystem, url: string, fileName: Path)
    requires fileName !in fs.files
    requires !NoNul(fileName)
    ensures DownloadMediaFile(env, fs, url, fileName) == Step(fs, [], Raised(OpenFailed))
  {
    var k :| 0 <= k < |fileName| && fileName[k] == '\0';
    assert TempPath(fileName)[k] == '\0';
  }

  /** Running the download again after it returned does nothing. */
  lemma DownloadIsIdempotent(env: Env, fs: FileSystem, url: string, fileName: Path)
    requires DownloadMediaFile(env, fs, url, fileName).outcome.Returned?
    ensures var first := DownloadMediaFile(env, fs, url, fileName);
            DownloadMediaFile(env, first.fs, url, fileName) == Step(first.fs, [], Returned(()))
  {
  }

  /** Two downloads to one name, from different URLs: when the first
      transfer breaks, the second finds its temporary file and resumes it
      from the first's offset with its own URL, so a completed second
      transfer publishes the first's bytes followed by the second's. */
  lemma ResumeAcrossUrls(env: Env, fs: FileSystem, urlA: string, urlB: string, fileName: Path)
    requires fileName !in fs.files && TempPath(fileName) !in fs.files
    requires CanOpenForWrite(fs, TempPath(fileName))
    requires env.net(Get(urlA)).Broken?
    ensures var a := DownloadMediaFile(env, fs, urlA, fileName);
            var b := DownloadMediaFile(env, a.fs, urlB, fileName);
            var received := env.net(Get(urlA)).received;
            && a.outcome == Raised(TransportFailed)
            && b.log == [Fetch(GetFrom(urlB, |received|))]
            && (b.outcome.Returned? ==>
                  b.fs.files[fileName] == received + env.net(GetFrom(urlB, |received|)).body)
  {
    var a := DownloadMediaFile(env, fs, urlA, fileName);
    var received := env.net(Get(urlA)).received;
    assert a.fs.files[TempPath(fileName)] == [] + received;
    assert [] + received == received;
    assert CanOpenForWrite(a.fs, TempPath(fileName));
  }

  /** The server behind `net` serves the resource `content` at `url`: a
      transfer from any offset within it delivers the rest of it, or
      breaks after delivering a prefix of the rest. */
  ghost predicate Serves(net: Request -> Reply, url: string, content: Bytes)
  {
    && ServesFrom(net(Get(url)), content)
    && forall k: nat :: k <= |content| ==> ServesFrom(net(GetFrom(url, k)), content[k..])
  }

  ghost predicate ServesFrom(reply: Reply, rest: Bytes)
  {
    match reply
    case Delivered(body) => body == rest
    case Broken(received) => received <= rest
  }

  /** The download target shows nothing but `content`: the final file, if
      present, is all of it, and the temporary file, if present, a prefix. */
  ghost predicate Consistent(fs: FileSystem, fileName: Path, content: Bytes)
  {
    && (fileName in fs.files ==> fs.files[fileName] == content)
    && Checkpoint(fs, fileName) <= content
  }

  /** Resume is safe: against a server serving `content`, one run keeps
      the target consistent, and a run that returns leaves exactly
      `content` under the final name, byte for byte what a single
      uninterrupted download would have written. */
  lemma {:induction false} ResumeKeepsConsistent(env: Env, fs: FileSystem, url: string, fileName: Path, content: Bytes)
    requires Serves(env.net, url, content)
    requires Consistent(fs, fileName, content)
    ensures var r := DownloadMediaFile(env, fs, url, fileName);
            && Consistent(r.fs, fileName, content)
            && (r.outcome.Returned? ==> r.fs.files[fileName] == content)
  {
    var r := DownloadMediaFile(env, fs, url, fileName);
    var temp := TempPath(fileName);
    if fileName !in fs.files && CanOpenForWrite(fs, temp) {
      var prior := Checkpoint(fs, fileName);
      var request := if Exists(fs, temp) then GetFrom(url, |prior|) else Get(url);
      assert prior <= content;
      if Exists(fs, temp) {
        assert ServesFrom(env.net(GetFrom(url, |prior|)), content[|prior|..]);
      } else {
        assert prior == [];
        assert content[|prior|..] == content;
      }
      assert ServesFrom(env.net(request), content[|prior|..]);
      assert content == prior + content[|prior|..];
      match env.net(request)
      case Broken(received) =>
        assert r.fs.files[temp] == prior + received;
        assert prior + received <= content;
      case Delivered(body) =>
        assert prior + body == content;
    }
  }

  /** The operator's recovery procedure: the same download run again,
      once per environment in `runs` (the network may answer differently
      each time); the outcome is that of the last run. */
  function Rerun(runs: seq<Env>, fs: FileSystem, url: string, fileName: Path): (r: Step<()>)
    requires |runs| > 0
    decreases |runs|
  {
    var first := DownloadMediaFile(runs[0], fs, url, fileName);
    if |runs| == 1 then first
    else
      var rest := Rerun(runs[1..], first.fs, url, fileName);
      Step(rest.fs, first.log + rest.log, rest.outcome)
  }

  /** However many runs break part-way, the final name only ever holds
      the complete content, and after the last run returns it does. */
  lemma {:induction false} RerunDeliversContent(runs: seq<Env>, fs: FileSystem, url: string, fileName: Path, content: Bytes)
    requires |runs| > 0
    requires forall i :: 0 <= i < |runs| ==> Serves(runs[i].net, url, content)
    requires Consistent(fs, fileName, content)
    ensures var r := Rerun(runs, fs, url, fileName);
            && Consistent(r.fs, fileName, content)
            && (r.outcome.Returned? ==> fileName in r.fs.files && r.fs.files[fileName] == content)
    decreases |runs|
  {
    ResumeKeepsConsistent(runs[0], fs, url, fileName, content);
    var first := DownloadMediaFile(runs[0], fs, url, fileName);
    if |runs| > 1 {
      RerunDeliversContent(runs[1..], first.fs, url, fileName, content);
    }
  }
}

=== FILE: naming.dfy ===
/** The pure string logic that names things: the track id and metadata
    URL taken from a listing link, the output file name built from a
    track's title and media URL, the naming policy, and the decision to
    convert and the converted file's name. */
module Naming {
  import opened PathNames
  import opened World

  const TrackJsonPrefix: string := "https://www.ximalaya.com/tracks/"
  const TrackJsonSuffix: string := ".json"

  /** One entry of the album listing: the link, its metadata URL and the
      track id. */
  datatype TrackInfo = TrackInfo(href: string, trackUrl: string, trackId: string)

  /** `href.split("/")[-1]`. */
  function TrackId(href: string): string
  {
    Basename(href)
  }

  function MetadataUrl(trackId: string): string
  {
    TrackJsonPrefix + trackId + TrackJsonSuffix
  }

  function TrackInfoOf(href: string): (t: TrackInfo)
    ensures t.href == href
    ensures t.trackUrl == MetadataUrl(t.trackId)
    ensures forall i :: 0 <= i < |t.trackId| ==> t.trackId[i] != '/'
    ensures |t.trackId| <= |href| && t.trackId == href[|href| - |t.trackId|..]
    ensures |t.trackId| < |href| ==> href[|href| - |t.trackId| - 1] == '/'
  {
    TrackInfo(href, MetadataUrl(TrackId(href)), TrackId(href))
  }

  /** The id is exactly the segment after the link's last `/`. */
  lemma TrackIdOfLink(path: string, id: string)
    requires forall i :: 0 <= i < |id| ==> id[i] != '/'
    ensures TrackId(path + "/" + id) == id
  {
    BasenameOfChild(path, id);
  }

  /** Distinct track ids give distinct metadata URLs, hence distinct
      cache entries. */
  lemma MetadataUrlInjective(a: string, b: string)
    requires MetadataUrl(a) == MetadataUrl(b)
    ensures a == b
  {
    var n := |TrackJsonPrefix|;
    assert a == MetadataUrl(a)[n..n + |a|];
    assert b == MetadataUrl(b)[n..n + |b|];
  }

  predicate IsAscii(c: char)
  {
    c as int <= 0x7F
  }

  predicate AllAscii(s: string)
  {
    forall i :: 0 <= i < |s| ==> IsAscii(s[i])
  }

  /** `a` can be obtained from `b` by deleting characters. */
  predicate IsSubsequence(a: string, b: string)
    decreases |b|
  {
    if |a| == 0 then true
    else if |b| == 0 then false
    else (a[0] == b[0] && IsSubsequence(a[1..], b[1..])) || IsSubsequence(a, b[1..])
  }

  /** `re.sub(r'[^\x00-\x7f]', '', title)`: every character above 0x7F is
      deleted, every other one kept in order. Separators are kept. */
  function Sanitize(title: string): (s: string)
    ensures AllAscii(s)
    ensures IsSubsequence(s, title)
    ensures forall c :: IsAscii(c) ==> multiset(s)[c] == multiset(title)[c]
  {
    if |title| == 0 then ""
    else
      var rest := Sanitize(title[1..]);
      assert title == [title[0]] + title[1..];
      if IsAscii(title[0]) then [title[0]] + rest else rest
  }

  /** Deleting characters distributes over concatenation. */
  lemma {:induction false} SanitizeConcat(a: string, b: string)
    ensures Sanitize(a + b) == Sanitize(a) + Sanitize(b)
    decreases |a|
  {
    if |a| > 0 {
      assert (a + b)[1..] == a[1..] + b;
      SanitizeConcat(a[1..], b);
    } else {
      assert a + b == b;
    }
  }

  /** Sanitising leaves a title unchanged exactly when it is all ASCII. */
  lemma {:induction false} SanitizeFixedPoint(title: string)
    ensures Sanitize(title) == title <==> AllAscii(title)
    decreases |title|
  {
    if |title| > 0 && AllAscii(title) {
      SanitizeFixedPoint(title[1..]);
    }
  }

  lemma SanitizeIdempotent(title: string)
    ensures Sanitize(Sanitize(title)) == Sanitize(title)
  {
    SanitizeFixedPoint(Sanitize(title));
  }

  /** A title with no ASCII character sanitises to the empty string. */
  lemma {:induction false} SanitizeNonAscii(title: string)
    requires forall i :: 0 <= i < |title| ==> !IsAscii(title[i])
    ensures Sanitize(title) == ""
    decreases |title|
  {
    if |title| > 0 {
      SanitizeNonAscii(title[1..]);
    }
  }

  /** The local file name of a track: sanitised title followed by the
      extension of its media URL. */
  function TrackFileName(meta: Metadata): string
  {
    Sanitize(meta.title) + Splitext(meta.playPath64).ext
  }

  /** When the sanitised title has a stem and the media URL an
      extension, the file name splits back into exactly those two. */
  lemma TrackFileNameSplits(meta: Metadata)
    requires HasStem(Sanitize(meta.title))
    requires Splitext(meta.playPath64).ext != ""
    ensures Splitext(TrackFileName(meta))
            == PathSplit(Sanitize(meta.title), Splitext(meta.playPath64).ext)
  {
    SplitextRoundTrip(Sanitize(meta.title), Splitext(meta.playPath64).ext);
  }

  const TrackNaming: string := "track"

  /** Output path of a track under the album directory: `naming ==
      "track"` prefixes the track id and an underscore, any other value
      uses the file name alone. */
  function OutputPath(albumPath: Path, naming: string, trackId: string, fileName: string): Path
  {
    if naming == TrackNaming then Join(albumPath, trackId + "_" + fileName)
    else Join(albumPath, fileName)
  }

  /** The naming policy on an album directory spelled without a trailing
      separator: `album/<id>_<name>` under "track" (the id holds no `/`,
      so this is always relative), `album/<name>` otherwise when the name
      is relative, and the name itself when it is absolute. */
  lemma NamingPolicy(albumPath: Path, naming: string, trackId: string, fileName: string)
    requires |albumPath| > 0 && albumPath[|albumPath| - 1] != '/'
    requires forall i :: 0 <= i < |trackId| ==> trackId[i] != '/'
    ensures naming == TrackNaming ==>
              OutputPath(albumPath, naming, trackId, fileName) == albumPath + "/" + trackId + "_" + fileName
    ensures naming != TrackNaming && !IsAbsolute(fileName) ==>
              OutputPath(albumPath, naming, trackId, fileName) == albumPath + "/" + fileName
    ensures naming != TrackNaming && IsAbsolute(fileName) ==>
              OutputPath(albumPath, naming, trackId, fileName) == fileName
  {
    var prefixed := trackId + "_" + fileName;
    assert !IsAbsolute(prefixed) by {
      if |trackId| > 0 {
        assert prefixed[0] == trackId[0];
      }
    }
    assert albumPath + "/" + prefixed == albumPath + "/" + trackId + "_" + fileName;
  }

  /** Under the default naming, two tracks whose titles hold no ASCII
      character and whose media URLs share an extension are given the
      same output path, whatever their ids. */
  lemma DefaultNamingCollides(albumPath: Path, naming: string, a: TrackInfo, b: TrackInfo, ma: Metadata, mb: Metadata)
    requires naming != TrackNaming
    requires forall i :: 0 <= i < |ma.title| ==> !IsAscii(ma.title[i])
    requires forall i :: 0 <= i < |mb.title| ==> !IsAscii(mb.title[i])
    requires Splitext(ma.playPath64).ext == Splitext(mb.playPath64).ext
    ensures OutputPath(albumPath, naming, a.trackId, TrackFileName(ma))
            == OutputPath(albumPath, naming, b.trackId, TrackFileName(mb))
  {
    SanitizeNonAscii(ma.title);
    SanitizeNonAscii(mb.title);
  }

  /** Target extensions as the command line offers them: no dot, no
      separator. */
  predicate IsTargetExtension(extension: string)
  {
    forall i :: 0 <= i < |extension| ==> extension[i] != '.' && extension[i] != '/'
  }

  /** `download_track` converts when the downloaded file's extension is
      not `.` followed by the requested one. */
  predicate NeedsConversion(fileName: Path, extension: string)
  {
    Splitext(fileName).ext != "." + extension
  }

  /** `convert_media_file`'s target: the file's root, a dot, the
      requested extension. */
  function ConvertedName(fileName: Path, extension: string): Path
  {
    Splitext(fileName).root + "." + extension
  }

  /** The converted file carries the requested extension on the same
      root, so it would not be converted again, whenever the original's
      root has a stem; when it has none (a name made of dots, or empty,
      under its directory) the converted name has no extension at all. */
  lemma ConvertedNameCarriesExtension(fileName: Path, extension: string)
    requires IsTargetExtension(extension)
    ensures HasStem(Splitext(fileName).root) ==>
              && Splitext(ConvertedName(fileName, extension))
                 == PathSplit(Splitext(fileName).root, "." + extension)
              && !NeedsConversion(ConvertedName(fileName, extension), extension)
    ensures !HasStem(Splitext(fileName).root) ==>
              Splitext(ConvertedName(fileName, extension)).ext == ""
  {
    var root := Splitext(fileName).root;
    var ext := "." + extension;
    DotExtension(extension);
    assert ConvertedName(fileName, extension) == root + ext;
    if HasStem(root) {
      SplitextRoundTrip(root, ext);
    } else {
      SplitextWithoutStem(root, ext);
    }
  }
}

=== FILE: pathnames.dfy ===
/** String-level path logic of the downloader: the parts of Python's
    `posixpath` it relies on (`join`, `splitext`, `dirname`, the last
    segment of `str.split("/")`), modelled on plain strings. */
module PathNames {

  type Path = string

  /** Index of the last occurrence of `c` in `s`, or -1 when there is
      none (`str.rfind`). */
  function LastIndexOf(s: string, c: char): (i: int)
    ensures -1 <= i < |s|
    ensures i >= 0 ==> s[i] == c
    ensures forall j :: i < j < |s| ==> s[j] != c
  {
    if |s| == 0 then -1
    else if s[|s| - 1] == c then |s| - 1
    else LastIndexOf(s[..|s| - 1], c)
  }

  /** The three postconditions of `LastIndexOf` pin its result down. */
  lemma LastIndexOfUnique(s: string, c: char, i: int)
    requires -1 <= i < |s|
    requires i >= 0 ==> s[i] == c
    requires forall j :: i < j < |s| ==> s[j] != c
    ensures LastIndexOf(s, c) == i
  {
  }

  /** The text after the last `/`: `p.split("/")[-1]`, and also the
      basename that `posixpath` works on. */
  function Basename(p: Path): (b: string)
    ensures |b| <= |p| && p[|p| - |b|..] == b
    ensures forall i :: 0 <= i < |b| ==> b[i] != '/'
    ensures |b| < |p| ==> p[|p| - |b| - 1] == '/'
  {
    p[LastIndexOf(p, '/') + 1..]
  }

  /** Appending a `/`-free name after a `/` makes it the basename. */
  lemma BasenameOfChild(dir: Path, name: string)
    requires forall i :: 0 <= i < |name| ==> name[i] != '/'
    ensures Basename(dir + "/" + name) == name
  {
    var p := dir + "/" + name;
    LastIndexOfUnique(p, '/', |dir|);
  }

  /** Only the last segment decides the basename. */
  lemma BasenameOfJoined(dir: Path, rest: Path)
    ensures Basename(dir + "/" + rest) == Basename(rest)
  {
    var p := dir + "/" + rest;
    var k := LastIndexOf(rest, '/');
    if k >= 0 {
      LastIndexOfUnique(p, '/', |dir| + 1 + k);
    } else {
      LastIndexOfUnique(p, '/', |dir|);
    }
  }

  predicate AllDots(s: string)
  {
    forall i :: 0 <= i < |s| ==> s[i] == '.'
  }

  predicate AllSlashes(s: string)
  {
    forall i :: 0 <= i < |s| ==> s[i] == '/'
  }

  predicate IsAbsolute(p: Path)
  {
    |p| > 0 && p[0] == '/'
  }

  /** `posixpath.join(a, b)`: an absolute `b` replaces `a`; otherwise a
      separator is inserted unless `a` is empty or already ends in one. */
  function Join(a: Path, b: Path): (r: Path)
    ensures |b| <= |r| && r[|r| - |b|..] == b
    ensures IsAbsolute(b) ==> r == b
    ensures !IsAbsolute(b) ==> r == a + b || r == a + "/" + b
    ensures !IsAbsolute(b) ==> (r == a + "/" + b <==> |a| > 0 && a[|a| - 1] != '/')
  {
    if IsAbsolute(b) then b
    else if |a| == 0 || a[|a| - 1] == '/' then a + b
    else a + "/" + b
  }

  /** Joining never changes the last segment: the basename of the joined
      path is the basename of its second argument, whichever of the three
      ways `join` combines them. */
  lemma JoinBasename(a: Path, b: Path)
    ensures Basename(Join(a, b)) == Basename(b)
  {
    if !IsAbsolute(b) {
      if |a| == 0 {
        assert Join(a, b) == b;
      } else if a[|a| - 1] == '/' {
        var dir := a[..|a| - 1];
        assert Join(a, b) == dir + "/" + b;
        BasenameOfJoined(dir, b);
      } else {
        BasenameOfJoined(a, b);
      }
    }
  }

  /** A root/extension pair as `posixpath.splitext` returns it. */
  datatype PathSplit = PathSplit(root: Path, ext: string)

  /** An extension as `splitext` reports one: a dot followed by
      characters that are neither dots nor separators. */
  predicate IsExtension(e: string)
  {
    && |e| >= 1
    && e[0] == '.'
    && forall i :: 1 <= i < |e| ==> e[i] != '.' && e[i] != '/'
  }

  /** A root whose basename is not made only of dots, so that a dot
      after it starts an extension rather than a hidden-file name. */
  predicate HasStem(root: Path)
  {
    !AllDots(Basename(root))
  }

  /** `posixpath.splitext`: the extension starts at the last dot after
      the last separator, provided some non-dot character of the
      basename precedes it (leading dots belong to the name). */
  function Splitext(p: Path): (r: PathSplit)
    ensures r.root + r.ext == p
    ensures r.ext == "" || (IsExtension(r.ext) && HasStem(r.root))
  {
    var sep := LastIndexOf(p, '/');
    var dot := LastIndexOf(p, '.');
    if sep < dot && !AllDots(p[sep + 1..dot]) then
      StemBeforeDot(p, sep, dot);
      assert p[..dot] + p[dot..] == p;
      PathSplit(p[..dot], p[dot..])
    else
      PathSplit(p, "")
  }

  /** The cut `Splitext` makes leaves a stem and a genuine extension. */
  lemma StemBeforeDot(p: Path, sep: int, dot: int)
    requires sep == LastIndexOf(p, '/') && dot == LastIndexOf(p, '.')
    requires sep < dot && !AllDots(p[sep + 1..dot])
    ensures HasStem(p[..dot]) && IsExtension(p[dot..])
  {
    var root := p[..dot];
    forall j | sep < j < |root| ensures root[j] != '/' {
      assert root[j] == p[j];
    }
    if sep >= 0 {
      assert root[sep] == p[sep];
    }
    LastIndexOfUnique(root, '/', sep);
    assert Basename(root) == root[sep + 1..];
    assert root[sep + 1..] == p[sep + 1..dot];
    var ext := p[dot..];
    forall i | 1 <= i < |ext| ensures ext[i] != '.' && ext[i] != '/' {
      assert ext[i] == p[dot + i];
    }
  }

  /** Appending an extension moves the last dot to its start and leaves
      the last separator where it was. */
  lemma LastIndicesAfterExtension(root: Path, ext: string)
    requires IsExtension(ext)
    ensures LastIndexOf(root + ext, '/') == LastIndexOf(root, '/')
    ensures LastIndexOf(root + ext, '.') == |root|
  {
    var p := root + ext;
    var sep := LastIndexOf(root, '/');
    forall j | sep < j < |p| ensures p[j] != '/' {
      if j < |root| {
        assert p[j] == root[j];
      } else {
        assert p[j] == ext[j - |root|];
      }
    }
    LastIndexOfUnique(p, '/', sep);
    forall j | |root| < j < |p| ensures p[j] != '.' {
      assert p[j] == ext[j - |root|];
    }
    LastIndexOfUnique(p, '.', |root|);
  }

  /** Every stem/extension decomposition is the one `Splitext` finds: it
      splits `root + ext` back into exactly `root` and `ext`. */
  lemma {:induction false} SplitextRoundTrip(root: Path, ext: string)
    requires HasStem(root)
    requires IsExtension(ext)
    ensures Splitext(root + ext) == PathSplit(root, ext)
  {
    var p := root + ext;
    var sep := LastIndexOf(root, '/');
    LastIndicesAfterExtension(root, ext);
    assert p[sep + 1..|root|] == Basename(root);
    assert p[..|root|] == root;
    assert p[|root|..] == ext;
  }

  /** The other half: after a root without a stem, no dot starts an
      extension. */
  lemma {:induction false} SplitextWithoutStem(root: Path, ext: string)
    requires !HasStem(root)
    requires IsExtension(ext)
    ensures Splitext(root + ext) == PathSplit(root + ext, "")
  {
    var p := root + ext;
    var sep := LastIndexOf(root, '/');
    LastIndicesAfterExtension(root, ext);
    assert p[sep + 1..|root|] == Basename(root);
  }

  /** A dot followed by a name without dots or separators is an
      extension. */
  lemma DotExtension(name: string)
    requires forall i :: 0 <= i < |name| ==> name[i] != '.' && name[i] != '/'
    ensures IsExtension("." + name)
  {
    var ext := "." + name;
    forall i | 1 <= i < |ext| ensures ext[i] != '.' && ext[i] != '/' {
      assert ext[i] == name[i - 1];
    }
  }

  /** Consequence of the round trip: a path that `Splitext` gives no
      extension has no stem/extension decomposition at all. */
  lemma SplitextNoExtension(p: Path, root: Path, ext: string)
    requires Splitext(p).ext == ""
    requires p == root + ext
    ensures !(HasStem(root) && IsExtension(ext))
  {
    if HasStem(root) && IsExtension(ext) {
      SplitextRoundTrip(root, ext);
    }
  }

  /** Removes trailing separators (`str.rstrip("/")`). */
  function StripSlashes(s: string): (r: string)
    ensures r <= s
    ensures |r| > 0 ==> r[|r| - 1] != '/'
    ensures forall i :: |r| <= i < |s| ==> s[i] == '/'
  {
    if |s| > 0 && s[|s| - 1] == '/' then StripSlashes(s[..|s| - 1]) else s
  }

  /** `posixpath.dirname`: everything up to the last separator, with the
      separators themselves dropped unless they are all there is. */
  function Dirname(p: Path): (d: Path)
    ensures d <= p
    ensures forall i :: |d| <= i < |p| - |Basename(p)| ==> p[i] == '/'
    ensures AllSlashes(p[..|p| - |Basename(p)|]) ==> d == p[..|p| - |Basename(p)|]
    ensures !AllSlashes(p[..|p| - |Basename(p)|]) ==>
              |d| > 0 && d[|d| - 1] != '/' && |d| <= |p| - |Basename(p)|
  {
    var head := p[..LastIndexOf(p, '/') + 1];
    if AllSlashes(head) then head
    else StripSlashes(head)
  }

  /** The parent of `dir/name` is `dir` when `name` has no separator and
      `dir` is spelled without a trailing one. */
  lemma DirnameOfChild(dir: Path, name: string)
    requires |dir| > 0 && dir[|dir| - 1] != '/'
    requires forall i :: 0 <= i < |name| ==> name[i] != '/'
    ensures Dirname(dir + "/" + name) == dir
  {
    var p := dir + "/" + name;
    LastIndexOfUnique(p, '/', |dir|);
    var head := p[..|dir| + 1];
    assert head == dir + "/";
    assert !AllSlashes(head) by {
      assert head[|dir| - 1] != '/';
    }
    assert head[..|head| - 1] == dir;
  }
}

=== FILE: storage.dfy ===
/** The local filesystem as the downloader sees it: regular files with
    their bytes, and the set of existing directories. Paths are compared
    as strings, without normalisation. */
module Storage {
  import opened PathNames

  newtype byte = x: int | 0 <= x < 256

  type Bytes = seq<byte>

  datatype FileSystem = FileSystem(files: map<Path, Bytes>, dirs: set<Path>)

  /** `os.path.exists`: a regular file or a directory. */
  predicate Exists(fs: FileSystem, p: Path)
  {
    p in fs.files || p in fs.dirs
  }

  /** The current directory (empty dirname) and the root always exist. */
  predicate DirExists(fs: FileSystem, d: Path)
  {
    AllSlashes(d) || d in fs.dirs
  }

  /** Python refuses a path holding a NUL character before asking the
      operating system. */
  predicate NoNul(p: Path)
  {
    forall i :: 0 <= i < |p| ==> p[i] != '\0'
  }

  /** `open(p, "wb")` or `open(p, "ab")` succeeds: the name is not empty,
      holds no NUL, does not end in a separator, is not a directory, and
      its parent directory exists. */
  predicate CanOpenForWrite(fs: FileSystem, p: Path)
  {
    && p != ""
    && NoNul(p)
    && p[|p| - 1] != '/'
    && p !in fs.dirs
    && DirExists(fs, Dirname(p))
  }

  /** The file `p` now holds exactly `data`; nothing else changes. */
  function Write(fs: FileSystem, p: Path, data: Bytes): (r: FileSystem)
    ensures p in r.files && r.files[p] == data
    ensures r.files - {p} == fs.files - {p}
    ensures r.dirs == fs.dirs
  {
    fs.(files := fs.files[p := data])
  }

  /** `os.rename(src, dst)` on a regular file `src`: `None` when it
      raises (the target is a directory or cannot be created). */
  function Rename(fs: FileSystem, src: Path, dst: Path): (r: Option<FileSystem>)
    requires src in fs.files
    requires src != dst
    ensures r.Some? <==> CanOpenForWrite(fs, dst)
    ensures r.Some? ==> dst in r.value.files && r.value.files[dst] == fs.files[src]
    ensures r.Some? ==> src !in r.value.files
    ensures r.Some? ==> r.value.files - {src, dst} == fs.files - {src, dst}
    ensures r.Some? ==> r.value.dirs == fs.dirs
  {
    if CanOpenForWrite(fs, dst) then
      Some(FileSystem((fs.files - {src})[dst := fs.files[src]], fs.dirs))
    else
      None
  }

  /** A write changes nothing outside any set of names holding it. */
  lemma WriteFrame(fs: FileSystem, p: Path, data: Bytes, touched: set<Path>)
    requires p in touched
    ensures Write(fs, p, data).files - touched == fs.files - touched
  {
  }

  /** A successful rename changes nothing outside any set of names
      holding both its source and its target. */
  lemma RenameFrame(fs: FileSystem, src: Path, dst: Path, touched: set<Path>)
    requires src in fs.files && src != dst
    requires CanOpenForWrite(fs, dst)
    requires src in touched && dst in touched
    ensures Rename(fs, src, dst).value.files - touched == fs.files - touched
  {
  }

  /** Two maps equal away from `touched` agree on every other key. */
  lemma Untouched(a: map<Path, Bytes>, b: map<Path, Bytes>, touched: set<Path>, p: Path)
    requires a - touched == b - touched
    requires p !in touched && p in b
    ensures p in a && a[p] == b[p]
  {
    assert p in b - touched;
    assert (a - touched)[p] == (b - touched)[p];
  }

  datatype Option<+T> = None | Some(value: T)
}

=== FILE: tracks.dfy ===
/** `download_track` and the error aggregation of `main`: per track, the
    metadata hop through the cache, the media download, the optional
    conversion and the error flag; per album, a fold over the tracks. */
module Tracks {
  import opened PathNames
  import opened Storage
  import opened World
  import opened Cache
  import opened Media
  import opened Naming

  /** One track. Fetching and reading the metadata document happen
      before the `try`, so their errors propagate as a raise; what happens
      inside the `try` is `TryDownload`. */
  function DownloadTrack(env: Env, fs: FileSystem, albumPath: Path, naming: string, extension: string,
                         info: TrackInfo): (r: Step<bool>)
    ensures SaveUrlToCache(env, fs, info.trackUrl).log <= r.log
    ensures r.outcome.Raised? ==> r.fs == SaveUrlToCache(env, fs, info.trackUrl).fs
    ensures r.fs.dirs == fs.dirs
  {
    var cached := SaveUrlToCache(env, fs, info.trackUrl);
    match cached.outcome
    case Raised(e) => Step(cached.fs, cached.log, Raised(e))
    case Returned(path) =>
      match env.parseTrackJson(cached.fs.files[path])
      case None => Step(cached.fs, cached.log, Raised(BadMetadata))
      case Some(meta) =>
        var attempt := TryDownload(env, cached.fs, albumPath, naming, extension, info.trackId, meta);
        Step(attempt.fs, cached.log + attempt.log, attempt.outcome)
  }

  /** The file a track is saved to. */
  function TrackOutputPath(albumPath: Path, naming: string, trackId: string, meta: Metadata): Path
  {
    OutputPath(albumPath, naming, trackId, TrackFileName(meta))
  }

  /** The `try` block of `download_track`: the media download, then a
      conversion when the file's extension is not the requested one. It
      always returns; the flag is `true` exactly when something in it
      raised: the download, or `subprocess.run` finding no ffmpeg. ffmpeg
      is asked for `<root>.<extension>` exactly when the download returned
      and a conversion is needed. */
  function TryDownload(env: Env, fs: FileSystem, albumPath: Path, naming: string, extension: string,
                       trackId: string, meta: Metadata): (r: Step<bool>)
    ensures var fileName := TrackOutputPath(albumPath, naming, trackId, meta);
            var media := DownloadMediaFile(env, fs, meta.playPath64, fileName);
            && r.outcome.Returned?
            && (r.outcome.value <==>
                  media.outcome.Raised? || (NeedsConversion(fileName, extension) && !env.ffmpegInstalled))
            && r.fs == media.fs
            && r.log == if media.outcome.Returned? && NeedsConversion(fileName, extension) && env.ffmpegInstalled
                        then media.log + [Transcode(fileName, ConvertedName(fileName, extension))]
                        else media.log
  {
    var fileName := TrackOutputPath(albumPath, naming, trackId, meta);
    var media := DownloadMediaFile(env, fs, meta.playPath64, fileName);
    var conversion := Transcode(fileName, ConvertedName(fileName, extension));
    if media.outcome.Raised? then
      Step(media.fs, media.log, Returned(true))
    else if !NeedsConversion(fileName, extension) then
      Step(media.fs, media.log, Returned(false))
    else if !env.ffmpegInstalled then
      Step(media.fs, media.log, Returned(true))
    else
      Step(media.fs, media.log + [conversion], Returned(false))
  }

  /** The metadata the track's cached document yields, if the cache
      fetch returned and the document could be read. */
  function TrackMetadata(env: Env, fs: FileSystem, info: TrackInfo): Option<Metadata>
  {
    var cached := SaveUrlToCache(env, fs, info.trackUrl);
    if cached.outcome.Raised? then None
    else env.parseTrackJson(cached.fs.files[cached.outcome.value])
  }

  /** `download_track` raises exactly when the metadata could not be
      fetched or read; otherwise it returns what its `try` block gives. */
  lemma TrackRaisesOnlyForMetadata(env: Env, fs: FileSystem, albumPath: Path, naming: string,
                                   extension: string, info: TrackInfo)
    ensures var r := DownloadTrack(env, fs, albumPath, naming, extension, info);
            r.outcome.Raised? <==> TrackMetadata(env, fs, info).None?
    ensures TrackMetadata(env, fs, info).Some? ==>
              var cached := SaveUrlToCache(env, fs, info.trackUrl);
              var attempt := TryDownload(env, cached.fs, albumPath, naming, extension, info.trackId,
                                         TrackMetadata(env, fs, info).value);
              DownloadTrack(env, fs, albumPath, naming, extension, info)
              == Step(attempt.fs, cached.log + attempt.log, attempt.outcome)
  {
  }

  /** A path spelled from the current directory, `./...`, as `main`
      builds the album directory. */
  predicate UnderCurrentDir(p: Path)
  {
    |p| >= 2 && p[0] == '.' && p[1] == '/'
  }

  /** Paths under `./` or absolute ones never coincide with a cache entry
      or its temporary file. */
  lemma OutsideCache(env: Env, p: Path, url: string)
    requires UnderCurrentDir(p) || IsAbsolute(p)
    ensures p != CachePath(env, url) && p != CacheTempPath(env, url)
  {
    CachePathForm(env, url);
    assert CachePath(env, url)[1] == CacheDir[1];
    assert CacheTempPath(env, url)[1] == CacheDir[1];
  }

  /** The output path of a track in an album directory under `./` or
      absolute is neither a cache entry nor a cache temporary file, and
      neither is the output's own temporary file. */
  lemma TrackPathOutsideCache(env: Env, albumPath: Path, naming: string, trackId: string, meta: Metadata,
                              url: string)
    requires UnderCurrentDir(albumPath) || IsAbsolute(albumPath)
    ensures var fileName := TrackOutputPath(albumPath, naming, trackId, meta);
            && fileName != CachePath(env, url) && fileName != CacheTempPath(env, url)
            && TempPath(fileName) != CachePath(env, url) && TempPath(fileName) != CacheTempPath(env, url)
  {
    var fileName := TrackOutputPath(albumPath, naming, trackId, meta);
    var name := if naming == TrackNaming then trackId + "_" + TrackFileName(meta) else TrackFileName(meta);
    assert fileName == Join(albumPath, name);
    assert UnderCurrentDir(fileName) || IsAbsolute(fileName) by {
      if !IsAbsolute(name) {
        assert albumPath <= fileName;
        assert fileName[0] == albumPath[0];
        if UnderCurrentDir(albumPath) {
          assert fileName[1] == albumPath[1];
        }
      }
    }
    OutsideCache(env, fileName, url);
    assert TempPath(fileName)[0] == fileName[0];
    assert |fileName| >= 2 ==> TempPath(fileName)[1] == fileName[1];
    OutsideCache(env, TempPath(fileName), url);
  }

  /** A media download to a path other than the cache entry's (and with
      a temporary file other than it) leaves the entry as it was. */
  lemma CacheEntrySurvivesDownload(env: Env, fs: FileSystem, url: string, mediaUrl: string, fileName: Path)
    requires CachePath(env, url) in fs.files
    requires CachePath(env, url) != fileName && CachePath(env, url) != TempPath(fileName)
    ensures var media := DownloadMediaFile(env, fs, mediaUrl, fileName);
            CachePath(env, url) in media.fs.files
            && media.fs.files[CachePath(env, url)] == fs.files[CachePath(env, url)]
  {
    var media := DownloadMediaFile(env, fs, mediaUrl, fileName);
    Untouched(media.fs.files, fs.files, {fileName, TempPath(fileName)}, CachePath(env, url));
  }

  /** The `try` block once the track's file exists: no request, no
      change, and an error only if a needed conversion cannot start. */
  lemma AttemptOnDownloadedFile(env: Env, fs: FileSystem, albumPath: Path, naming: string, extension: string,
                                trackId: string, meta: Metadata)
    requires TrackOutputPath(albumPath, naming, trackId, meta) in fs.files
    ensures var attempt := TryDownload(env, fs, albumPath, naming, extension, trackId, meta);
            var fileName := TrackOutputPath(albumPath, naming, trackId, meta);
            && attempt.fs == fs
            && attempt.outcome == Returned(NeedsConversion(fileName, extension) && !env.ffmpegInstalled)
            && NoFetch(attempt.log)
  {
  }

  /** Re-running a track that finished without error, as the program
      advises, fetches nothing and changes nothing: the cached metadata
      and the downloaded file are both found. Only a conversion, if one is
      needed, is run again. The album directory is under `./` or absolute,
      as `main` builds it: `./downloads` joined with the album title, which
      replaces it when the title starts with `/`. */
  lemma {:induction false} TrackRerunIsQuiet(env: Env, fs: FileSystem, albumPath: Path, naming: string,
                                             extension: string, info: TrackInfo)
    requires UnderCurrentDir(albumPath) || IsAbsolute(albumPath)
    requires DownloadTrack(env, fs, albumPath, naming, extension, info).outcome == Returned(false)
    ensures var first := DownloadTrack(env, fs, albumPath, naming, extension, info);
            var again := DownloadTrack(env, first.fs, albumPath, naming, extension, info);
            && again.fs == first.fs
            && again.outcome == Returned(false)
            && NoFetch(again.log)
  {
    TrackRaisesOnlyForMetadata(env, fs, albumPath, naming, extension, info);
    var cached := SaveUrlToCache(env, fs, info.trackUrl);
    var path := cached.outcome.value;
    var meta := TrackMetadata(env, fs, info).value;
    var fileName := TrackOutputPath(albumPath, naming, info.trackId, meta);
    var media := DownloadMediaFile(env, cached.fs, meta.playPath64, fileName);
    var attempt := TryDownload(env, cached.fs, albumPath, naming, extension, info.trackId, meta);
    var first := DownloadTrack(env, fs, albumPath, naming, extension, info);
    assert first.fs == attempt.fs == media.fs;
    assert media.outcome.Returned? by {
      assert attempt.outcome == Returned(false);
    }
    TrackPathOutsideCache(env, albumPath, naming, info.trackId, meta, info.trackUrl);
    CacheEntrySurvivesDownload(env, cached.fs, info.trackUrl, meta.playPath64, fileName);
    assert SaveUrlToCache(env, first.fs, info.trackUrl) == Step(first.fs, [], Returned(path));
    assert TrackMetadata(env, first.fs, info) == Some(meta);
    TrackRaisesOnlyForMetadata(env, first.fs, albumPath, naming, extension, info);
    AttemptOnDownloadedFile(env, first.fs, albumPath, naming, extension, info.trackId, meta);
  }

  /** Outcome of a list of tracks joined with the outcome of the list that
      follows it: the first raise wins, otherwise the flags concatenate. */
  function Then(a: Outcome<seq<bool>>, b: Outcome<seq<bool>>): Outcome<seq<bool>>
  {
    match a
    case Raised(e) => Raised(e)
    case Returned(xs) =>
      match b
      case Raised(e) => Raised(e)
      case Returned(ys) => Returned(xs + ys)
  }

  function Single(o: Outcome<bool>): Outcome<seq<bool>>
  {
    match o
    case Raised(e) => Raised(e)
    case Returned(flag) => Returned([flag])
  }

  /** `executor.map(task, items)` run one item after the other, each on
      the filesystem the previous one left. The flags come back in listing
      order; the first raise in order is the one that surfaces when its
      result is collected. Items after a raising one still run here. */
  function MapTasks(task: (FileSystem, string) -> Step<bool>, fs: FileSystem, items: seq<string>): (r: Step<seq<bool>>)
    ensures r.outcome.Returned? ==> |r.outcome.value| == |items|
    decreases |items|
  {
    if |items| == 0 then Step(fs, [], Returned([]))
    else
      var first := task(fs, items[0]);
      var rest := MapTasks(task, first.fs, items[1..]);
      Step(rest.fs, first.log + rest.log, Then(Single(first.outcome), rest.outcome))
  }

  /** Partial-failure isolation: running a listing is running its first
      part and then its second part on the filesystem the first left,
      whatever flags the first part produced. */
  lemma {:induction false} MapTasksAppend(task: (FileSystem, string) -> Step<bool>, fs: FileSystem,
                                          h1: seq<string>, h2: seq<string>)
    ensures var all := MapTasks(task, fs, h1 + h2);
            var first := MapTasks(task, fs, h1);
            var second := MapTasks(task, first.fs, h2);
            && all.fs == second.fs
            && all.log == first.log + second.log
            && all.outcome == Then(first.outcome, second.outcome)
    decreases |h1|
  {
    if |h1| == 0 {
      assert h1 + h2 == h2;
      var second := MapTasks(task, fs, h2);
      match second.outcome
      case Raised(_) =>
      case Returned(ys) => assert [] + ys == ys;
    } else {
      assert (h1 + h2)[0] == h1[0];
      assert (h1 + h2)[1..] == h1[1..] + h2;
      var head := task(fs, h1[0]);
      MapTasksAppend(task, head.fs, h1[1..], h2);
      var tail1 := MapTasks(task, head.fs, h1[1..]);
      var second := MapTasks(task, tail1.fs, h2);
      assert head.log + (tail1.log + second.log) == (head.log + tail1.log) + second.log;
      ThenAssociative(Single(head.outcome), tail1.outcome, second.outcome);
    }
  }

  /** Flag `i` of a run that returned is the result of task `i`, run on
      the filesystem the tasks before it left. */
  lemma MapTasksFlag(task: (FileSystem, string) -> Step<bool>, fs: FileSystem, items: seq<string>, i: int)
    requires 0 <= i < |items|
    requires MapTasks(task, fs, items).outcome.Returned?
    ensures task(MapTasks(task, fs, items[..i]).fs, items[i]).outcome
            == Returned(MapTasks(task, fs, items).outcome.value[i])
  {
    assert items == items[..i] + items[i..];
    MapTasksAppend(task, fs, items[..i], items[i..]);
    var first := MapTasks(task, fs, items[..i]);
    var second := MapTasks(task, first.fs, items[i..]);
    assert items[i..][0] == items[i];
    var head := task(first.fs, items[i]);
    assert second.outcome == Then(Single(head.outcome), MapTasks(task, head.fs, items[i..][1..]).outcome);
  }

  /** A run raises exactly when some task raises, each on the filesystem
      the tasks before it left. */
  lemma {:induction false} MapTasksRaises(task: (FileSystem, string) -> Step<bool>, fs: FileSystem, items: seq<string>)
    ensures MapTasks(task, fs, items).outcome.Raised?
            <==> exists i :: 0 <= i < |items| && task(MapTasks(task, fs, items[..i]).fs, items[i]).outcome.Raised?
    decreases |items|
  {
    if |items| > 0 {
      var head := task(fs, items[0]);
      var rest := items[1..];
      MapTasksRaises(task, head.fs, rest);
      assert items[..0] == [];
      if head.outcome.Raised? {
        assert task(MapTasks(task, fs, items[..0]).fs, items[0]).outcome.Raised?;
      } else {
        forall j | 0 <= j < |rest|
          ensures MapTasks(task, fs, items[..j + 1]).fs == MapTasks(task, head.fs, rest[..j]).fs
          ensures items[j + 1] == rest[j]
        {
          assert items[..j + 1][0] == items[0];
          assert items[..j + 1][1..] == rest[..j];
        }
        if MapTasks(task, head.fs, rest).outcome.Raised? {
          var j :| 0 <= j < |rest| && task(MapTasks(task, head.fs, rest[..j]).fs, rest[j]).outcome.Raised?;
          assert task(MapTasks(task, fs, items[..j + 1]).fs, items[j + 1]).outcome.Raised?;
        } else {
          forall i | 0 <= i < |items|
            ensures !task(MapTasks(task, fs, items[..i]).fs, items[i]).outcome.Raised?
          {
            if i > 0 {
              assert MapTasks(task, fs, items[..i]).fs == MapTasks(task, head.fs, rest[..i - 1]).fs;
            }
          }
        }
      }
    }
  }

  /** A run that returned has a set flag exactly when some task returned
      `true`. */
  lemma MapTasksSomeFlag(task: (FileSystem, string) -> Step<bool>, fs: FileSystem, items: seq<string>)
    requires MapTasks(task, fs, items).outcome.Returned?
    ensures (exists i :: 0 <= i < |items| && MapTasks(task, fs, items).outcome.value[i])
            <==> exists i :: 0 <= i < |items| && task(MapTasks(task, fs, items[..i]).fs, items[i]).outcome == Returned(true)
  {
    forall i | 0 <= i < |items|
      ensures task(MapTasks(task, fs, items[..i]).fs, items[i]).outcome
              == Returned(MapTasks(task, fs, items).outcome.value[i])
    {
      MapTasksFlag(task, fs, items, i);
    }
  }

  /** `partial(download_track, album_path, naming, extension)` applied to
      a listing link. */
  function TrackTask(env: Env, albumPath: Path, naming: string, extension: string): (FileSystem, string) -> Step<bool>
  {
    (fs: FileSystem, href: string) => DownloadTrack(env, fs, albumPath, naming, extension, TrackInfoOf(href))
  }

  function RunTracks(env: Env, fs: FileSystem, albumPath: Path, naming: string, extension: string,
                     hrefs: seq<string>): Step<seq<bool>>
  {
    MapTasks(TrackTask(env, albumPath, naming, extension), fs, hrefs)
  }

  lemma ThenAssociative(a: Outcome<seq<bool>>, b: Outcome<seq<bool>>, c: Outcome<seq<bool>>)
    ensures Then(a, Then(b, c)) == Then(Then(a, b), c)
  {
    if a.Returned? && b.Returned? && c.Returned? {
      assert a.value + (b.value + c.value) == (a.value + b.value) + c.value;
    }
  }

  /** The loop over the collected results in `main`: the run has an error
      when some flag is set. */
  function AnyFailed(flags: seq<bool>): (r: bool)
    ensures r <==> exists i :: 0 <= i < |flags| && flags[i]
  {
    if |flags| == 0 then false
    else flags[0] || AnyFailed(flags[1..])
  }

  /** The album run of `main`: all tracks, then the verdict. The run
      raises exactly when some track raised; otherwise it reports an error
      exactly when some track returned `true`. Track `i` runs on the
      filesystem the tracks before it left. */
  function RunAlbum(env: Env, fs: FileSystem, albumPath: Path, naming: string, extension: string,
                    hrefs: seq<string>): (r: Step<bool>)
    ensures r.fs == RunTracks(env, fs, albumPath, naming, extension, hrefs).fs
    ensures r.outcome.Raised? <==>
              exists i :: 0 <= i < |hrefs| &&
                TrackTask(env, albumPath, naming, extension)(
                  RunTracks(env, fs, albumPath, naming, extension, hrefs[..i]).fs, hrefs[i]).outcome.Raised?
    ensures r.outcome.Returned? ==>
              (r.outcome.value <==>
                 exists i :: 0 <= i < |hrefs| &&
                   TrackTask(env, albumPath, naming, extension)(
                     RunTracks(env, fs, albumPath, naming, extension, hrefs[..i]).fs, hrefs[i]).outcome == Returned(true))
  {
    var task := TrackTask(env, albumPath, naming, extension);
    var run := RunTracks(env, fs, albumPath, naming, extension, hrefs);
    MapTasksRaises(task, fs, hrefs);
    match run.outcome
    case Raised(e) => Step(run.fs, run.log, Raised(e))
    case Returned(flags) =>
      MapTasksSomeFlag(task, fs, hrefs);
      Step(run.fs, run.log, Returned(AnyFailed(flags)))
  }
}

=== FILE: world.dfy ===
/** What lies outside the downloader's own logic: the network, SHA-256,
    the JSON reader for a track document and the ffmpeg executable, all
    passed in as an environment; and what a call leaves behind: the new
    filesystem, the external actions it took, and a return or a raise. */
module World {
  import opened PathNames
  import opened Storage

  /** An HTTP GET, plain or resumed from a byte offset. */
  datatype Request = Get(url: string) | GetFrom(url: string, offset: nat)

  /** The network's answer to one request: the whole body (whatever the
      status code, which the downloader never looks at), or a transport
      failure after `received` bytes had been streamed. */
  datatype Reply = Delivered(body: Bytes) | Broken(received: Bytes)

  /** The two fields the downloader reads from a track's JSON document. */
  datatype Metadata = Metadata(playPath64: string, title: string)

  predicate IsHexDigit(c: char)
  {
    ('0' <= c <= '9') || ('a' <= c <= 'f')
  }

  /** A lower-case SHA-256 `hexdigest()`: 64 hexadecimal digits. */
  predicate IsHexDigest(s: string)
  {
    |s| == 64 && forall i :: 0 <= i < |s| ==> IsHexDigit(s[i])
  }

  type HexDigest = s: string | IsHexDigest(s)
    witness seq(64, _ => '0')

  /** The collaborators a run depends on. `net` is a fixed oracle, so the
      same request always gets the same reply within one environment;
      `parseTrackJson` is `None` when reading the document raises. */
  datatype Env = Env(
    sha256: string -> HexDigest,
    net: Request -> Reply,
    parseTrackJson: Bytes -> Option<Metadata>,
    ffmpegInstalled: bool)

  /** The exception a Python call raises. */
  datatype Error =
    | OpenFailed       // open() of a temporary file
    | TransportFailed  // requests.get or pycurl perform
    | RenameFailed     // os.rename onto the final name
    | BadMetadata      // reading the track JSON document

  datatype Outcome<+T> = Returned(value: T) | Raised(error: Error)

  /** An action visible outside the filesystem. */
  datatype Action = Fetch(request: Request) | Transcode(source: Path, target: Path)

  predicate NoFetch(log: seq<Action>)
  {
    forall i :: 0 <= i < |log| ==> !log[i].Fetch?
  }

  /** The result of one call: filesystem afterwards, actions in order,
      and how the call ended. */
  datatype Step<+T> = Step(fs: FileSystem, log: seq<Action>, outcome: Outcome<T>)
}
